=== FILE: README.md ===
# Heartbeat liveness monitor — Dafny model

This project models the liveness bookkeeping of a small server monitor. The
monitor has a fixed roster of servers. Each server is named by a 128-bit UUID
and a display name. Each server sends UDP heartbeat datagrams that hold its
UUID as text. The monitor sweeps the roster in passes. After each pass it
sleeps 5 seconds, so consecutive passes are at least 5 seconds apart plus
the time a pass takes, and a pass includes its blocking email sends. In each
pass:

- A server silent for more than 10 seconds is added to the list of down
  servers and announced by a "down" email.
- A listed server that has been heard from again within 10 seconds is
  removed and announced by an "up" email.

The emails are filled from subject and body templates. `%UUID%` is replaced
first, then `%NAME%`.

The model has no threads, sockets, configuration or SMTP. What remains is
pure functions over immutable maps and sequences. Time is a `nat` number of
nanoseconds.

| module (file) | what it models |
|---|---|
| `Wrappers` (wrappers.dfy) | `Option` |
| `Uuid` (uuid.dfy) | the 128-bit identifier and its canonical text `uuid.to_string()` (lower-case, 8-4-4-4-12), with its inverse |
| `Clock` (clock.dfy) | `Instant` as a `nat`, saturating `duration_since`, the strict 10 s threshold |
| `Registry` (registry.dfy) | the startup loop that folds the roster into the heartbeat map and the name map |
| `Liveness` (liveness.dfy) | the handling of one datagram (malformed, unknown sender, heartbeat), and the listener loop over a run of datagrams |
| `Sweeper` (sweeper.dfy) | one iteration of the sweep loop for one server, and one full pass over the map in iteration order |
| `Template` (template.dfy) | Rust `str::replace`, and the `%UUID%`-then-`%NAME%` substitution |
| `Notifier` (notifier.dfy) | choosing the down or up templates for an event and filling them in |
| `Monitor` (monitor.dfy) | the whole store as a state machine: startup, then any interleaving of datagrams and sweep passes as atomic steps |

Design choices:

- **Time.** The source reads `Instant::now()` once per roster entry while
  loading. So `Registry.Load` takes one clock reading per entry.
  `Registry.LoadAtStartup` covers the case of a single startup instant.
- **Datagram payloads.** Decoding the bytes, trimming them and running
  `Uuid::parse_str` are abstracted into the parse outcome, an `Option<Id>`.
- **Iteration order.** The order in which a `HashMap` yields its keys is
  unspecified. It is therefore the parameter `order` of `Sweeper.Sweep`, and
  every sweep property holds for any order.
- **The down list.** The source keeps it in a `Vec`, so the model keeps it
  as a `seq`. Membership uses `contains`. Removal deletes the first position
  `position` finds (`Sweeper.Position`, `Sweeper.RemoveAt`).
- **Vector and unwrapped sends.** The down list is a `Vec`, not a set, so
  the model proves that the sweep keeps it duplicate-free rather than
  assuming it. A failed email send is unwrapped. The sweep loop is awaited
  on the main task of the tokio runtime (src/main.rs:10-11 and 41), so the
  panic ends the whole process, listener included; no failure is logged
  and retried.
- **Atomic steps.** The sweep keeps the heartbeat map locked for the whole
  pass, notifications included. The listener takes the same lock for each
  touch. Each sweep pass and each datagram is therefore one atomic step.

## Model

| member | source | states |
|---|---|---|
| Registry.Load | src/main.rs:22-29 | Both maps have exactly the roster's identifiers as keys. For a repeated identifier the last roster entry wins in both maps: the name and the clock reading of that entry are kept. |
| Registry.LoadAtStartup | src/main.rs:27 | When the clock reads one startup instant throughout loading, every server starts with that instant as its last heartbeat. |
| Registry.LoadDistinct | src/main.rs:22-29 | With no repeated identifiers, every roster entry is found under its own identifier with its own name and clock reading. |
| Liveness.Touch | src/main.rs:61-64 | A known id gets timestamp `now`. Every other entry and the key set are unchanged. An unknown id leaves the map equal to the input. |
| Liveness.Receive | src/main.rs:54-67 | A malformed payload leaves the map unchanged and reports Malformed. A well-formed unregistered id leaves it unchanged and reports the unknown sender. A registered id is refreshed to `now` and nothing else changes. The key set never changes. |
| Liveness.Listen | src/main.rs:48-67 | Over any run of datagrams the key set is unchanged. Each registered server ends with the arrival time of the last datagram that named it, or keeps its old time if none did. Malformed and unknown datagrams do not stop later ones from being processed. |
| Liveness.ListenCons | src/main.rs:48-67 | Processing one datagram and then a run of further datagrams gives the same map as processing the whole run, so the listener loop can be read from the front as well as from the back. |
| Clock.Elapsed | src/main.rs:78 | `duration_since` saturates: for an earlier instant the elapsed time added to it gives `now`; for an instant not before `now` it is zero. |
| Clock.Expired | src/main.rs:78 | A server counts as silent exactly when `now` lies more than 10 s (10^10 ns) past its last heartbeat; a heartbeat stamped after `now` never counts. |
| Clock.ExpiryBoundary | src/main.rs:78 | The comparison is strict: exactly 10 s of silence is still up, and 10 s plus one nanosecond is down. |
| Clock.ExpiryPersists | src/main.rs:78 | Without a new heartbeat, a server that counts as silent stays silent at every later time. |
| Sweeper.Position | src/main.rs:86 | Returns the first index holding the id, or none exactly when the id is not in the list. |
| Sweeper.RemoveAt | src/main.rs:87 | `Vec::remove` drops exactly one occurrence of the element at the index, and keeps the elements before it and after it in order. |
| Sweeper.RemoveAtMembership | src/main.rs:87 | Removing one position leaves every other id's membership unchanged. In a duplicate-free list it removes the id altogether, and the list stays duplicate-free. |
| Sweeper.Check | src/main.rs:77-90 | After one iteration the id is listed exactly when it is silent for longer than the threshold. No other id's membership changes. The list stays duplicate-free. When membership already matched, the list and the events are unchanged. A flip emits exactly one event of the right kind carrying the registered name. |
| Sweeper.Sweep | src/main.rs:73-91 | After a pass, each visited id is listed exactly when it is silent for longer than the threshold. Each unvisited id keeps its old membership. The list stays duplicate-free. |
| Sweeper.SweepEvents | src/main.rs:80-88 | A Down event is emitted for an id exactly when the pass added it to the list. An Up event is emitted exactly when the pass removed it. The event carries the registered name. No server gets two events in one pass. |
| Sweeper.SweepStable | src/main.rs:76-90 | When every visited id's membership already matches its silence, the pass returns the list unchanged and emits no events. |
| Sweeper.SweepIdempotent | src/main.rs:76-90 | A second pass at the same instant, in any order over the same servers, emits nothing and leaves the list exactly as the first pass left it. |
| Sweeper.SweepOrderIndependent | src/main.rs:76 | Two iteration orders over the same servers give the same set of down servers and the same set of events. The order of the event list follows the iteration order. |
| Sweeper.SweepLater | src/main.rs:78-88 | Without new heartbeats, a later pass never emits an Up event. It never re-announces a server the earlier pass left down. |
| Template.Replace | src/main.rs:107 | A replacement as long as the pattern keeps the text's length. |
| Template.ReplaceUnmatched | src/main.rs:107 | A text with no occurrence of the pattern is returned unchanged. |
| Template.ReplaceLeftmost | src/main.rs:107 | The leftmost occurrence is the one replaced: the text before it is copied, the occurrence becomes the replacement, and the scan resumes after it, so the replacement text is never rescanned. |
| Template.ReplaceBeforeMatch | src/main.rs:107 | Text in which no occurrence starts is copied, and the occurrence right after it is replaced. |
| Template.ReplaceWithItself | src/main.rs:107 | Replacing a pattern by itself returns the input, for every input. |
| Template.ReplaceLeavesNoOccurrence | src/main.rs:107 | When the replacement text is non-empty and shares no character with the pattern, no occurrence of the pattern is left in the output. |
| Template.ReplaceBetween | src/main.rs:108 | A single pattern between two texts, neither of which contains the pattern's first character, is the only thing replaced. |
| Template.Substitute | src/main.rs:105-109 | A template with neither placeholder is returned unchanged. A template without `%UUID%` only has `%NAME%` replaced. Where each placeholder's value lands in a general template is stated by `SubstituteUuid` and `SubstituteName`. |
| Template.SubstituteName | src/main.rs:105-109 | A `%NAME%` placeholder preceded by text without `%` and not followed by `UUID%` receives the name verbatim, and the rest of the template is filled independently, for every id and name. |
| Template.SubstituteUuid | src/main.rs:105-109 | A `%UUID%` placeholder preceded by text without `%` receives the identifier's hyphenated text, and the rest of the template is filled independently, for every id and name. Together with `SubstituteName`, this fills any template built from `%`-free text and placeholders piece by piece. The one exception is the `%NAME%UUID%` overlap. |
| Template.NamePassesFirstPass | src/main.rs:107 | The `%UUID%` pass leaves such a `%NAME%` placeholder in place and fills only the text after it. |
| Template.NameLostBeforeUuidText | src/main.rs:105-109 | The template `%NAME%UUID%` becomes `%NAME` followed by the identifier text: the `%UUID%` pass consumes the placeholder's closing `%`, so the name is lost. |
| Template.UuidPlaceholdersFilled | src/main.rs:107 | After the first replacement no `%UUID%` is left, because the identifier text has no `%`, `U`, `I` or `D`. |
| Template.NameInsertedVerbatim | src/main.rs:107-108 | The template `%NAME%` becomes exactly the name, whatever the name contains. A name containing `%UUID%` keeps it literally. |
| Template.ReplacementOrderMatters | src/main.rs:105-109 | With the source's order a name reading `%UUID%` survives. With the opposite order it would become the identifier text. |
| Uuid.Hyphenated | src/main.rs:107 | The identifier text is 36 characters long, with hyphens at positions 8, 13, 18 and 23 and lower-case hexadecimal digits everywhere else. |
| Uuid.FromHyphenated | src/main.rs:107 | Accepts exactly the canonical 36-character shape. Whatever it accepts prints back to the same text. |
| Uuid.HyphenatedRoundTrip | src/main.rs:107 | Reading back the text of an identifier gives that identifier. |
| Uuid.HyphenatedInjective | src/main.rs:107 | Two identifiers have the same text exactly when they are equal, so a notification names one server. |
| Notifier.Compose | src/main.rs:98-143 | A down event is filled into the down templates and an up event into the up templates. A subject or body with no placeholder is sent verbatim. |
| Notifier.SubjectScenario | src/main.rs:105-109 | For every id and name, the subject `%UUID% (%NAME%) is down` becomes the id text, then ` (`, the name, and `) is down`. |
| Monitor.Start | src/main.rs:19-32 | The startup state covers exactly the roster's servers, has both maps on the same keys, and lists no server as down. |
| Monitor.Step | src/main.rs:52-91 | Every step keeps the invariant: same key set in both maps, and a duplicate-free down list of registered servers. A malformed or unknown datagram leaves the state unchanged. After a sweep pass, every server is listed exactly when it is silent for longer than the threshold. The pass's events are exactly the flips, at most one per server. |
| Monitor.Run | src/main.rs:31-41 | Any interleaving of datagrams and sweep passes keeps the invariant, the key set and the names. |
| Monitor.RunTwo | src/main.rs:31-41 | Running two steps is the second step applied to the state the first leaves, and the events are concatenated. |
| Monitor.SilentServersDownOnce | src/main.rs:73-91 | Whatever clock reading each roster entry got at startup, servers never heard from afterwards are each announced down exactly once over two passes, once every reading lies more than 10 s in the past. |
| Monitor.FirstSilentPass | src/main.rs:78-82 | From an empty down list, a pass at which every server's last heartbeat is more than 10 s old announces every server down, once each. |
| Monitor.SecondSilentPass | src/main.rs:78-80 | A later pass with still no heartbeats announces nothing, since silence persists and every server is already listed. |
| Monitor.RecoveryAfterHeartbeat | src/main.rs:60-88 | A heartbeat from a down server, then a pass within the threshold, removes the server from the list. It is announced up exactly once, and no other event names it. |
| Monitor.DeliveriesAreListen | src/main.rs:48-67 | A run made only of datagram deliveries leaves the down list and the names alone, emits no event, and leaves the heartbeat map exactly as the listener loop alone would. |
| Monitor.QuietStep | src/main.rs:73-91 | One step that carries no datagram from `id` keeps its heartbeat. Once listed it stays listed. A pass that finds it silent lists it. Any event naming it is its down announcement, made only when it was not yet listed, and at most one such event is made. |
| Monitor.QuietServerEvents | src/main.rs:72-95 | From a valid state in which a listed `id` is already silent at instant `since`, over any interleaving in which `id` sends nothing and every pass is at or after `since` with times never going backwards, at most one event names `id`. That event is its down announcement. It is made exactly when `id` was not listed and some pass finds it silent. |
| Monitor.QuietServerDownAtMostOnce | src/main.rs:19-95 | From the startup state, over passes whose times never go backwards (`Instant` is monotonic), a server that never sends is announced down at most once and never announced up, whatever the other servers and the pass order do. It is announced exactly when some pass finds it silent for more than 10 s. |

## Left out

- Threads and locking are left out. That covers the tokio runtime, `thread::spawn`, `Arc<Mutex<…>>` and the two infinite loops. Each datagram and each sweep pass is one atomic step, which matches the lock the source holds.
- The UDP socket is left out: binding, receiving and the 36-byte receive buffer are operating-system I/O.
- UTF-8 lossy decoding, `trim` and `Uuid::parse_str` are left out. They are a foreign crate and text handling. Their combined outcome is the `Option<Id>` of a datagram.
- Configuration loading and its `unwrap` panics are left out. The roster arrives already parsed as `(name, id)` pairs.
- Message building and SMTP sending are left out. A notification is the emitted event and the filled subject and body. The source unwraps connection and send errors, and the sweep runs on the main task, so a failed email ends the process. The model does not claim failure isolation.
- `sleep`, the 5-second interval and all `println!` logging are left out. The listener's log line becomes the `Receipt` value.
- Template.Replace: its own contract states only that an equal-length replacement keeps the length; what it replaces is stated by `Template.ReplaceUnmatched`, `Template.ReplaceLeftmost` and `Template.ReplaceBeforeMatch`, which keeps the quantifier of `Occurs` out of every proof that unfolds `Replace`.
- Template.Replace: requires a non-empty pattern. Rust's `replace` also defines the empty pattern, but the source only passes the two constant placeholders.
- Uuid.FromHyphenated: reads back only the canonical lower-case hyphenated text. It is not a model of `Uuid::parse_str`, which accepts more forms.
- Sweeper.Sweep: the `HashMap` iteration order is a parameter. The `unwrap` of the name lookup at line 77 becomes the requirement that every visited id has a name. `Monitor.Start` shows that both maps have the same keys.

=== FILE: clock.dfy ===
/** Monotonic clock readings and the liveness threshold. */
module Clock {

  /** A reading of the monotonic clock (`Instant`), in nanoseconds. */
  type Time = nat

  /** `Duration::from_secs(10)` in nanoseconds: the longest silence a server
      may keep and still count as up. */
  const THRESHOLD: nat := 10_000_000_000

  /** `now.duration_since(earlier)`: the time elapsed since `earlier`,
      saturating at zero when `earlier` lies after `now`. */
  function Elapsed(now: Time, earlier: Time): (d: nat)
    ensures earlier <= now ==> earlier + d == now
    ensures now <= earlier ==> d == 0
  {
    if earlier <= now then now - earlier else 0
  }

  /** `now.duration_since(last) > Duration::from_secs(10)`: a server last
      heard from at `last` has been silent too long at `now`. Because the
      subtraction saturates, a heartbeat stamped after `now` never counts. */
  predicate Expired(now: Time, last: Time): (b: bool)
    ensures b <==> now > last + THRESHOLD
  {
    Elapsed(now, last) > THRESHOLD
  }

  /** The comparison is strict: exactly ten seconds of silence is still up,
      one nanosecond more is down. */
  lemma ExpiryBoundary(last: Time)
    ensures !Expired(last + THRESHOLD, last)
    ensures Expired(last + THRESHOLD + 1, last)
  {
  }

  /** Once expired, a server stays expired as the clock advances. */
  lemma ExpiryPersists(last: Time, now: Time, later: Time)
    requires now <= later
    ensures Expired(now, last) ==> Expired(later, last)
  {
  }
}

=== FILE: liveness.dfy ===
/** The heartbeat listener's effect on the liveness store: one datagram, whose
    payload has already been parsed (or not) as an identifier, either
    refreshes a known server's last-heartbeat time or changes nothing. */
module Liveness {
  import opened Wrappers
  import opened Uuid
  import opened Clock

  /** Refreshes the last-heartbeat time of `id` if it is a registered server. */
  function Touch(heartbeats: map<Id, Time>, id: Id, now: Time): (r: map<Id, Time>)
    ensures r.Keys == heartbeats.Keys
    ensures id in heartbeats ==> r[id] == now
    ensures forall k :: k in heartbeats && k != id ==> r[k] == heartbeats[k]
    ensures id !in heartbeats ==> r == heartbeats
  {
    if id in heartbeats then heartbeats[id := now] else heartbeats
  }

  /** What the listener reports about one datagram. */
  datatype Receipt =
    | Malformed              // the payload is not an identifier
    | UnknownSender(id: Id)  // a well-formed identifier that is not registered
    | Accepted(id: Id)       // a heartbeat from a registered server

  datatype Delivery = Delivery(heartbeats: map<Id, Time>, receipt: Receipt)

  /** One datagram arriving at time `now`; `parsed` is the outcome of parsing
      its trimmed payload as an identifier. */
  function Receive(heartbeats: map<Id, Time>, parsed: Option<Id>, now: Time): (d: Delivery)
    ensures d.heartbeats.Keys == heartbeats.Keys
    ensures parsed.None? ==> d == Delivery(heartbeats, Malformed)
    ensures parsed.Some? && parsed.value !in heartbeats ==>
              d == Delivery(heartbeats, UnknownSender(parsed.value))
    ensures parsed.Some? && parsed.value in heartbeats ==>
              && d.receipt == Accepted(parsed.value)
              && d.heartbeats[parsed.value] == now
              && forall k :: k in heartbeats && k != parsed.value ==> d.heartbeats[k] == heartbeats[k]
  {
    match parsed
    case None => Delivery(heartbeats, Malformed)
    case Some(id) =>
      if id in heartbeats then Delivery(Touch(heartbeats, id, now), Accepted(id))
      else Delivery(heartbeats, UnknownSender(id))
  }

  /** A received datagram: its parsed payload and its arrival time. */
  datatype Datagram = Datagram(parsed: Option<Id>, at: Time)

  /** `i` is the last datagram in `ds` that names `id`. */
  predicate IsLastFrom(ds: seq<Datagram>, id: Id, i: int) {
    && 0 <= i < |ds|
    && ds[i].parsed == Some(id)
    && forall j :: i < j < |ds| ==> ds[j].parsed != Some(id)
  }

  /** The listener loop over a run of datagrams, one after the other. A
      malformed or unknown datagram never stops it: every registered server
      ends with the arrival time of the last datagram that named it, or its
      old time if none did. */
  function Listen(heartbeats: map<Id, Time>, ds: seq<Datagram>): (r: map<Id, Time>)
    ensures r.Keys == heartbeats.Keys
    ensures forall id, i :: id in heartbeats && IsLastFrom(ds, id, i) ==> r[id] == ds[i].at
    ensures forall id :: id in heartbeats && (forall i :: 0 <= i < |ds| ==> ds[i].parsed != Some(id)) ==>
              r[id] == heartbeats[id]
  {
    if ds == [] then heartbeats
    else
      var n := |ds| - 1;
      var prev := Listen(heartbeats, ds[..n]);
      var r := Receive(prev, ds[n].parsed, ds[n].at).heartbeats;
      ListenStep(heartbeats, ds[..n], ds[n], prev);
      assert ds[..n] + [ds[n]] == ds;
      r
  }

  /** The last datagram of a run, handled after the listener loop over the
      ones before it, leaves the map the loop over the whole run promises. */
  lemma ListenStep(heartbeats: map<Id, Time>, before: seq<Datagram>, d: Datagram, prev: map<Id, Time>)
    requires prev.Keys == heartbeats.Keys
    requires forall id, i :: id in heartbeats && IsLastFrom(before, id, i) ==> prev[id] == before[i].at
    requires forall id :: id in heartbeats && (forall i :: 0 <= i < |before| ==> before[i].parsed != Some(id)) ==>
               prev[id] == heartbeats[id]
    ensures var r := Receive(prev, d.parsed, d.at).heartbeats;
            var ds := before + [d];
            && r.Keys == heartbeats.Keys
            && (forall id, i :: id in heartbeats && IsLastFrom(ds, id, i) ==> r[id] == ds[i].at)
            && (forall id :: id in heartbeats && (forall i :: 0 <= i < |ds| ==> ds[i].parsed != Some(id)) ==>
                  r[id] == heartbeats[id])
  {
    var ds := before + [d];
    var r := Receive(prev, d.parsed, d.at).heartbeats;
    forall id: Id, i | id in heartbeats && IsLastFrom(ds, id, i) ensures r[id] == ds[i].at {
      if d.parsed == Some(id) {
        assert ds[|before|] == d;
        assert i == |before|;
      } else {
        assert i < |before| && ds[i] == before[i];
        assert IsLastFrom(before, id, i) by {
          forall j | i < j < |before| ensures before[j].parsed != Some(id) {
            assert ds[j] == before[j];
          }
        }
        assert r[id] == prev[id];
      }
    }
    forall id | id in heartbeats && (forall i :: 0 <= i < |ds| ==> ds[i].parsed != Some(id))
      ensures r[id] == heartbeats[id]
    {
      assert ds[|before|] == d;
      assert forall i :: 0 <= i < |before| ==> ds[i] == before[i];
      assert r[id] == prev[id];
    }
  }

  /** A datagram that names `id` has a last such datagram at or after it. */
  lemma {:induction false} FindLast(ds: seq<Datagram>, id: Id, i: nat) returns (j: nat)
    requires i < |ds| && ds[i].parsed == Some(id)
    ensures i <= j && IsLastFrom(ds, id, j)
    decreases |ds| - i
  {
    if k :| i < k < |ds| && ds[k].parsed == Some(id) {
      j := FindLast(ds, id, k);
    } else {
      j := i;
    }
  }

  /** The last datagram naming `id` in a run stays the last one when a
      datagram is put in front. */
  lemma LastFromCons(d: Datagram, ds: seq<Datagram>, id: Id, j: int)
    requires IsLastFrom(ds, id, j)
    ensures IsLastFrom([d] + ds, id, j + 1)
  {
    var all := [d] + ds;
    forall m | j + 1 < m < |all| ensures all[m].parsed != Some(id) {
      assert all[m] == ds[m - 1];
    }
  }

  /** No datagram of `ds` names `id`; `ds` with `d` in front has none other
      than possibly `d` itself. */
  lemma NoneFromCons(d: Datagram, ds: seq<Datagram>, id: Id)
    requires forall i :: 0 <= i < |ds| ==> ds[i].parsed != Some(id)
    ensures d.parsed == Some(id) ==> IsLastFrom([d] + ds, id, 0)
    ensures d.parsed != Some(id) ==> forall i :: 0 <= i < |[d] + ds| ==> ([d] + ds)[i].parsed != Some(id)
  {
    var all := [d] + ds;
    forall m | 0 < m < |all| ensures all[m].parsed != Some(id) {
      assert all[m] == ds[m - 1];
    }
  }

  /** Handling one datagram and then a run of them is the listener loop over
      the longer run: the loop can be read from the front as well as from
      the back. */
  lemma ListenCons(heartbeats: map<Id, Time>, d: Datagram, ds: seq<Datagram>)
    ensures Listen(Receive(heartbeats, d.parsed, d.at).heartbeats, ds) == Listen(heartbeats, [d] + ds)
  {
    var h1 := Receive(heartbeats, d.parsed, d.at).heartbeats;
    var all := [d] + ds;
    var l, r := Listen(h1, ds), Listen(heartbeats, all);
    forall k | k in heartbeats ensures l[k] == r[k] {
      if i :| 0 <= i < |ds| && ds[i].parsed == Some(k) {
        var j := FindLast(ds, k, i);
        LastFromCons(d, ds, k, j);
        assert l[k] == ds[j].at && r[k] == all[j + 1].at;
      } else {
        NoneFromCons(d, ds, k);
      }
    }
  }
}

=== FILE: monitor.dfy ===
/** The whole monitor as a state machine: the registry loaded at startup, then
    any interleaving of received datagrams and sweep passes, each taken as
    one atomic step (the source serialises them with the heartbeat map's
    lock). */
module Monitor {
  import opened Wrappers
  import opened Uuid
  import opened Clock
  import opened Registry
  import opened Liveness
  import opened Sweeper

  /** The liveness store and the registry's names. */
  datatype State = State(heartbeats: map<Id, Time>, names: map<Id, string>, down: seq<Id>)

  /** What holds from startup on: the two maps cover the same servers, and
      the down list is a duplicate-free list of registered servers. */
  predicate Valid(s: State) {
    && s.heartbeats.Keys == s.names.Keys
    && NoDuplicates(s.down)
    && forall k :: k in s.down ==> k in s.heartbeats
  }

  /** Every registered server is listed as down exactly when its silence at
      `now` exceeds the threshold. */
  predicate Settled(s: State, now: Time) {
    forall k :: k in s.heartbeats ==> (k in s.down <==> Expired(now, s.heartbeats[k]))
  }

  /** The state right after startup: the registry loaded, nobody down. */
  function Start(roster: seq<Server>, clock: seq<Time>): (s: State)
    requires |clock| == |roster|
    ensures Valid(s)
    ensures s.heartbeats.Keys == Ids(roster)
    ensures s.down == []
  {
    var r := Load(roster, clock);
    State(r.heartbeats, r.names, [])
  }

  datatype Action =
    | Heard(datagram: Datagram)         // the listener handles one datagram
    | Tick(now: Time, order: seq<Id>)   // one sweep pass, visiting `order`

  /** A sweep visits every registered server exactly once, in the map's
      (unspecified) iteration order. */
  ghost predicate Allowed(s: State, a: Action) {
    a.Tick? ==> (forall k :: k in a.order <==> k in s.heartbeats) && NoDuplicates(a.order)
  }

  datatype Transition = Transition(state: State, events: seq<Event>)

  function Step(s: State, a: Action): (t: Transition)
    requires Valid(s) && Allowed(s, a)
    ensures Valid(t.state)
    ensures t.state.heartbeats.Keys == s.heartbeats.Keys && t.state.names == s.names
    ensures a.Heard? ==> t.events == [] && t.state.down == s.down
    ensures a.Heard? && !(a.datagram.parsed.Some? && a.datagram.parsed.value in s.heartbeats) ==> t.state == s
    ensures a.Tick? ==> t.state.heartbeats == s.heartbeats && Settled(t.state, a.now)
    ensures a.Tick? ==> forall e :: e in t.events <==> IsTransition(e, s.names, s.down, t.state.down)
    ensures a.Tick? ==> OnePerServer(t.events)
  {
    match a
    case Heard(d) =>
      Transition(s.(heartbeats := Receive(s.heartbeats, d.parsed, d.at).heartbeats), [])
    case Tick(now, order) =>
      var r := Sweep(s.heartbeats, s.names, s.down, now, order);
      SweepEvents(s.heartbeats, s.names, s.down, now, order);
      Transition(s.(down := r.down), r.events)
  }

  /** A sequence of steps, the events of all steps in order. */
  function Run(s: State, actions: seq<Action>): (t: Transition)
    requires Valid(s)
    requires forall i :: 0 <= i < |actions| ==> Allowed(s, actions[i])
    ensures Valid(t.state)
    ensures t.state.heartbeats.Keys == s.heartbeats.Keys && t.state.names == s.names
    decreases |actions|
  {
    if actions == [] then Transition(s, [])
    else
      var first := Step(s, actions[0]);
      assert forall i :: 1 <= i < |actions| ==> Allowed(first.state, actions[i]) by {
        forall i | 1 <= i < |actions| ensures Allowed(first.state, actions[i]) {
          assert Allowed(s, actions[i]);
        }
      }
      var rest := Run(first.state, actions[1..]);
      Transition(rest.state, first.events + rest.events)
  }

  /** Two steps in a row: the second starts from the state the first leaves. */
  lemma RunTwo(s: State, a: Action, b: Action)
    requires Valid(s) && Allowed(s, a) && Allowed(s, b)
    ensures var first := Step(s, a);
            Allowed(first.state, b) &&
            Run(s, [a, b]) == Transition(Step(first.state, b).state, first.events + Step(first.state, b).events)
  {
    var first := Step(s, a);
    assert [a, b][1..] == [b];
    assert [b][1..] == [];
    var second := Step(first.state, b);
    assert Run(first.state, [b]) == Transition(second.state, second.events + []);
    assert second.events + [] == second.events;
  }

  /** Every registered server has been silent for longer than the threshold. */
  predicate AllExpired(s: State, now: Time) {
    forall k :: k in s.heartbeats ==> Expired(now, s.heartbeats[k])
  }

  /** Servers that never send a heartbeat are each announced down exactly
      once: when every startup clock reading lies more than the threshold in
      the past, the first pass announces every server, a later pass
      announces nothing more. */
  lemma SilentServersDownOnce(roster: seq<Server>, clock: seq<Time>, now: Time, later: Time,
                              order: seq<Id>, again: seq<Id>)
    requires |clock| == |roster|
    requires forall i :: 0 <= i < |clock| ==> Expired(now, clock[i])
    requires now <= later
    requires (forall k :: k in order <==> k in Ids(roster)) && NoDuplicates(order)
    requires (forall k :: k in again <==> k in Ids(roster)) && NoDuplicates(again)
    ensures var s := Start(roster, clock);
            var t := Run(s, [Tick(now, order), Tick(later, again)]);
            && (forall e :: e in t.events <==> e.Down? && e.id in s.names && e.name == s.names[e.id])
            && OnePerServer(t.events)
  {
    var s := Start(roster, clock);
    assert AllExpired(s, now) by {
      forall k | k in s.heartbeats ensures Expired(now, s.heartbeats[k]) {
        var i := LastEntry(roster, k);
        assert s.heartbeats[k] == clock[i];
      }
    }
    RunTwo(s, Tick(now, order), Tick(later, again));
    var first := Step(s, Tick(now, order));
    FirstSilentPass(s, now, order);
    SecondSilentPass(first.state, now, later, again);
    assert first.events + [] == first.events;
  }

  /** From an empty down list, a pass at which every server is silent for
      longer than the threshold announces every server down, once. */
  lemma FirstSilentPass(s: State, now: Time, order: seq<Id>)
    requires Valid(s) && s.down == [] && AllExpired(s, now)
    requires (forall k :: k in order <==> k in s.heartbeats) && NoDuplicates(order)
    ensures var t := Step(s, Tick(now, order));
            && AllExpired(t.state, now)
            && (forall e :: e in t.events <==> e.Down? && e.id in s.names && e.name == s.names[e.id])
            && OnePerServer(t.events)
  {
    SweepEvents(s.heartbeats, s.names, s.down, now, order);
  }

  /** A later pass with still no heartbeat announces nothing. */
  lemma SecondSilentPass(s: State, now: Time, later: Time, order: seq<Id>)
    requires Valid(s) && Settled(s, now) && AllExpired(s, now) && now <= later
    requires (forall k :: k in order <==> k in s.heartbeats) && NoDuplicates(order)
    ensures Step(s, Tick(later, order)).events == []
  {
    forall k | k in s.heartbeats ensures Expired(later, s.heartbeats[k]) {
      ExpiryPersists(s.heartbeats[k], now, later);
    }
    SweepStable(s.heartbeats, s.names, s.down, later, order);
  }

  /** A heartbeat from a server that is down brings it back: the next pass
      within the threshold removes it from the down list and announces it up,
      exactly once. */
  lemma RecoveryAfterHeartbeat(s: State, id: Id, at: Time, now: Time, order: seq<Id>)
    requires Valid(s) && id in s.down
    requires !Expired(now, at)
    requires (forall k :: k in order <==> k in s.heartbeats) && NoDuplicates(order)
    ensures var t := Run(s, [Heard(Datagram(Some(id), at)), Tick(now, order)]);
            && id !in t.state.down
            && Up(id, s.names[id]) in t.events
            && (forall e :: e in t.events && e.id == id ==> e == Up(id, s.names[id]))
            && OnePerServer(t.events)
  {
    RunTwo(s, Heard(Datagram(Some(id), at)), Tick(now, order));
    var first := Step(s, Heard(Datagram(Some(id), at)));
    assert first.state.heartbeats[id] == at;
    var second := Step(first.state, Tick(now, order));
    assert Run(s, [Heard(Datagram(Some(id), at)), Tick(now, order)]).events == second.events by {
      assert [] + second.events == second.events;
    }
    assert id !in second.state.down;
    assert IsTransition(Up(id, s.names[id]), s.names, first.state.down, second.state.down);
  }

  /** The listener's datagrams as steps of the state machine. */
  function Deliveries(ds: seq<Datagram>): (actions: seq<Action>)
    ensures |actions| == |ds|
    ensures forall i :: 0 <= i < |ds| ==> actions[i] == Heard(ds[i])
  {
    seq(|ds|, i requires 0 <= i < |ds| => Heard(ds[i]))
  }

  /** A run made only of datagrams is the listener loop: the heartbeat map
      ends as `Listen` leaves it, the down list is untouched and nothing is
      announced. */
  lemma {:induction false} DeliveriesAreListen(s: State, ds: seq<Datagram>)
    requires Valid(s)
    ensures var t := Run(s, Deliveries(ds));
            && t.state.heartbeats == Listen(s.heartbeats, ds)
            && t.state.down == s.down && t.state.names == s.names
            && t.events == []
    decreases |ds|
  {
    var actions := Deliveries(ds);
    if ds != [] {
      var d := ds[0];
      var first := Step(s, Heard(d));
      assert first.state.heartbeats == Receive(s.heartbeats, d.parsed, d.at).heartbeats;
      assert actions[1..] == Deliveries(ds[1..]);
      DeliveriesAreListen(first.state, ds[1..]);
      ListenCons(s.heartbeats, d, ds[1..]);
      assert [d] + ds[1..] == ds;
      assert Run(s, actions) == Transition(Run(first.state, actions[1..]).state, [] + Run(first.state, actions[1..]).events);
    }
  }

  /** No datagram of the run names `id`. */
  predicate NeverHeardFrom(actions: seq<Action>, id: Id) {
    forall i :: 0 <= i < |actions| && actions[i].Heard? ==> actions[i].datagram.parsed != Some(id)
  }

  /** The sweep passes of the run read a clock that never goes backwards,
      starting no earlier than `since`. */
  predicate TicksFrom(actions: seq<Action>, since: Time) {
    && (forall i :: 0 <= i < |actions| && actions[i].Tick? ==> since <= actions[i].now)
    && (forall i, j :: 0 <= i < j < |actions| && actions[i].Tick? && actions[j].Tick? ==>
          actions[i].now <= actions[j].now)
  }

  /** Some sweep pass of the run finds a heartbeat at `last` expired. */
  predicate SilentAtSomeTick(actions: seq<Action>, last: Time) {
    exists i :: 0 <= i < |actions| && actions[i].Tick? && Expired(actions[i].now, last)
  }

  /** At most one event of the list names `id`. */
  predicate AtMostOnce(events: seq<Event>, id: Id) {
    forall i, j :: 0 <= i < j < |events| && events[i].id == id ==> events[j].id != id
  }

  /** One step for a server `id` that does not send: its heartbeat is kept;
      once listed it stays listed; and an event naming it can only be its
      down announcement, made when the step lists it. */
  lemma QuietStep(s: State, a: Action, id: Id, since: Time)
    requires Valid(s) && Allowed(s, a) && id in s.heartbeats
    requires a.Heard? ==> a.datagram.parsed != Some(id)
    requires a.Tick? ==> since <= a.now
    requires id in s.down ==> Expired(since, s.heartbeats[id])
    ensures var t := Step(s, a);
            var next := if a.Tick? then a.now else since;
            && t.state.heartbeats[id] == s.heartbeats[id]
            && (id in t.state.down ==> Expired(next, s.heartbeats[id]))
            && (id in s.down ==> id in t.state.down)
            && (a.Tick? && Expired(a.now, s.heartbeats[id]) ==> id in t.state.down)
            && (forall e :: e in t.events && e.id == id ==>
                  e == Down(id, s.names[id]) && id !in s.down && id in t.state.down)
            && (id !in s.down && id in t.state.down ==>
                  Down(id, s.names[id]) in t.events && a.Tick? && Expired(a.now, s.heartbeats[id]))
            && AtMostOnce(t.events, id)
  {
    var t := Step(s, a);
    if a.Tick? {
      ExpiryPersists(s.heartbeats[id], since, a.now);
      assert id in s.down ==> id in t.state.down;
      forall e | e in t.events && e.id == id
        ensures e == Down(id, s.names[id]) && id !in s.down && id in t.state.down
      {
        assert IsTransition(e, s.names, s.down, t.state.down);
      }
      if id !in s.down && id in t.state.down {
        assert IsTransition(Down(id, s.names[id]), s.names, s.down, t.state.down);
      }
    } else {
      assert t.state.heartbeats == Receive(s.heartbeats, a.datagram.parsed, a.datagram.at).heartbeats;
    }
  }

  /** Joining two event lists, at most one of which names `id`. */
  lemma AtMostOnceJoin(first: seq<Event>, rest: seq<Event>, id: Id)
    requires AtMostOnce(first, id) && AtMostOnce(rest, id)
    requires (forall e :: e in first ==> e.id != id) || (forall e :: e in rest ==> e.id != id)
    ensures AtMostOnce(first + rest, id)
  {
    var all := first + rest;
    forall i, j | 0 <= i < j < |all| && all[i].id == id ensures all[j].id != id {
      if j < |first| {
        assert all[i] == first[i] && all[j] == first[j];
      } else if i < |first| {
        assert all[i] == first[i] && all[j] == rest[j - |first|];
      } else {
        assert all[i] == rest[i - |first|] && all[j] == rest[j - |first|];
      }
    }
  }

  /** What a run announces about a server `id` named `name` that sends
      nothing: at most one event names it, that event is its down
      announcement, and it is made exactly when some pass found it silent
      (`silent`), unless it was already listed (`wasDown`). */
  predicate QuietOutcome(events: seq<Event>, id: Id, name: string, wasDown: bool, silent: bool) {
    && AtMostOnce(events, id)
    && (forall e :: e in events && e.id == id ==> e == Down(id, name) && !wasDown && silent)
    && (!wasDown && silent ==> Down(id, name) in events)
  }

  /** Over any run in which `id` sends nothing and the clock does not go
      backwards: at most one event names `id`, it is its down announcement,
      it is made exactly when some pass finds `id` silent (unless `id` was
      already listed), and a listed `id` is never announced again. */
  lemma {:induction false} QuietServerEvents(s: State, actions: seq<Action>, id: Id, since: Time)
    requires Valid(s) && id in s.heartbeats
    requires forall i :: 0 <= i < |actions| ==> Allowed(s, actions[i])
    requires NeverHeardFrom(actions, id) && TicksFrom(actions, since)
    requires id in s.down ==> Expired(since, s.heartbeats[id])
    ensures QuietOutcome(Run(s, actions).events, id, s.names[id], id in s.down,
                         SilentAtSomeTick(actions, s.heartbeats[id]))
    decreases |actions|
  {
    if actions != [] {
      var a, tail := actions[0], actions[1..];
      var first := Step(s, a);
      var next := if a.Tick? then a.now else since;
      QuietTail(actions, id, since);
      QuietStep(s, a, id, since);
      RunCons(s, actions);
      QuietServerEvents(first.state, tail, id, next);
      QuietFirstStep(s, actions, id, since, Run(first.state, tail).events);
    } else {
      assert Run(s, actions).events == [];
    }
  }

  /** The inductive step of `QuietServerEvents`: what the events `rest`
      after the first step say about `id`, together with that step, gives
      the same statement for the first step's events followed by `rest`. */
  lemma QuietFirstStep(s: State, actions: seq<Action>, id: Id, since: Time, rest: seq<Event>)
    requires Valid(s) && id in s.heartbeats && actions != [] && Allowed(s, actions[0])
    requires NeverHeardFrom(actions, id) && TicksFrom(actions, since)
    requires id in s.down ==> Expired(since, s.heartbeats[id])
    requires QuietOutcome(rest, id, s.names[id], id in Step(s, actions[0]).state.down,
                          SilentAtSomeTick(actions[1..], s.heartbeats[id]))
    ensures QuietOutcome(Step(s, actions[0]).events + rest, id, s.names[id], id in s.down,
                         SilentAtSomeTick(actions, s.heartbeats[id]))
  {
    var a, tail := actions[0], actions[1..];
    var first := Step(s, a);
    QuietTail(actions, id, since);
    QuietStep(s, a, id, since);
    assert actions == [a] + tail;
    QuietJoin(a, tail, id, s.names[id], s.heartbeats[id], id in s.down, id in first.state.down,
              first.events, rest);
  }

  /** A run is its first step followed by the run of the remaining actions
      from the state that step leaves. */
  lemma RunCons(s: State, actions: seq<Action>)
    requires Valid(s) && actions != []
    requires forall i :: 0 <= i < |actions| ==> Allowed(s, actions[i])
    ensures var first := Step(s, actions[0]);
            && (forall i :: 0 <= i < |actions[1..]| ==> Allowed(first.state, actions[1..][i]))
            && Run(s, actions) == Transition(Run(first.state, actions[1..]).state,
                                             first.events + Run(first.state, actions[1..]).events)
  {
    var first := Step(s, actions[0]);
    forall i | 0 <= i < |actions[1..]| ensures Allowed(first.state, actions[1..][i]) {
      assert actions[1..][i] == actions[i + 1] && Allowed(s, actions[i + 1]);
    }
  }

  /** The conditions of `QuietServerEvents` pass from a run to its first
      action and to the rest of the run. */
  lemma QuietTail(actions: seq<Action>, id: Id, since: Time)
    requires actions != [] && NeverHeardFrom(actions, id) && TicksFrom(actions, since)
    ensures actions[0].Heard? ==> actions[0].datagram.parsed != Some(id)
    ensures actions[0].Tick? ==> since <= actions[0].now
    ensures NeverHeardFrom(actions[1..], id)
    ensures TicksFrom(actions[1..], if actions[0].Tick? then actions[0].now else since)
  {
    assert forall i :: 0 <= i < |actions[1..]| ==> actions[1..][i] == actions[i + 1];
  }

  /** Combining one step with the rest of a run: what the step and the
      rest say about `id` give the same statement for the whole run.
      `wasDown` and `nowDown` are `id`'s membership before and after the
      step, `last` its heartbeat throughout. */
  lemma QuietJoin(a: Action, tail: seq<Action>, id: Id, name: string, last: Time, wasDown: bool, nowDown: bool,
                  first: seq<Event>, rest: seq<Event>)
    requires forall e :: e in first && e.id == id ==> e == Down(id, name) && !wasDown && nowDown
    requires !wasDown && nowDown ==> Down(id, name) in first && a.Tick? && Expired(a.now, last)
    requires a.Tick? && Expired(a.now, last) ==> nowDown
    requires wasDown ==> nowDown
    requires AtMostOnce(first, id)
    requires QuietOutcome(rest, id, name, nowDown, SilentAtSomeTick(tail, last))
    ensures QuietOutcome(first + rest, id, name, wasDown, SilentAtSomeTick([a] + tail, last))
  {
    var actions := [a] + tail;
    AtMostOnceJoin(first, rest, id);
    assert SilentAtSomeTick(tail, last) ==> SilentAtSomeTick(actions, last) by {
      if SilentAtSomeTick(tail, last) {
        var i :| 0 <= i < |tail| && tail[i].Tick? && Expired(tail[i].now, last);
        assert actions[i + 1] == tail[i];
      }
    }
    assert a.Tick? && Expired(a.now, last) ==> SilentAtSomeTick(actions, last) by {
      assert actions[0] == a;
    }
    if !wasDown && SilentAtSomeTick(actions, last) && !nowDown {
      var i :| 0 <= i < |actions| && actions[i].Tick? && Expired(actions[i].now, last);
      assert i != 0;
      assert tail[i - 1] == actions[i];
    }
  }

  /** A server that never sends after startup is announced down at most
      once over any run of datagrams and sweep passes with a clock that
      does not go backwards, whatever the other servers do; it is announced
      exactly when some pass finds it silent, and never announced up. */
  lemma QuietServerDownAtMostOnce(roster: seq<Server>, clock: seq<Time>, actions: seq<Action>, id: Id)
    requires |clock| == |roster| && id in Ids(roster)
    requires forall i :: 0 <= i < |actions| ==> Allowed(Start(roster, clock), actions[i])
    requires NeverHeardFrom(actions, id) && TicksFrom(actions, 0)
    ensures var s := Start(roster, clock);
            var t := Run(s, actions);
            && AtMostOnce(t.events, id)
            && (forall e :: e in t.events && e.id == id ==> e == Down(id, s.names[id]))
            && (Down(id, s.names[id]) in t.events <==> SilentAtSomeTick(actions, s.heartbeats[id]))
  {
    var s := Start(roster, clock);
    assert id in s.heartbeats && s.down == [];
    QuietServerEvents(s, actions, id, 0);
  }
}

=== FILE: notifier.dfy ===
/** The notification for a transition: the configured subject and body
    templates of its kind, with the server's identifier text and display
    name filled in. Sending the message is outside the model. */
module Notifier {
  import opened Uuid
  import opened Template
  import opened Sweeper

  /** The four templates of the SMTP settings. */
  datatype Templates = Templates(downSubject: string, downBody: string, upSubject: string, upBody: string)

  datatype Message = Message(subject: string, body: string)

  /** `notify_down` / `notify_up`: the templates of the event's kind, each
      run through the `%UUID%`-then-`%NAME%` substitution. */
  function Compose(e: Event, t: Templates): (m: Message)
    ensures var (subject, body) := if e.Down? then (t.downSubject, t.downBody) else (t.upSubject, t.upBody);
            && m == Message(Substitute(subject, e.id, e.name), Substitute(body, e.id, e.name))
            && (!Occurs(subject, UUID_PLACEHOLDER) && !Occurs(subject, NAME_PLACEHOLDER) ==> m.subject == subject)
            && (!Occurs(body, UUID_PLACEHOLDER) && !Occurs(body, NAME_PLACEHOLDER) ==> m.body == body)
  {
    match e
    case Down(id, name) => Message(Substitute(t.downSubject, id, name), Substitute(t.downBody, id, name))
    case Up(id, name) => Message(Substitute(t.upSubject, id, name), Substitute(t.upBody, id, name))
  }

  /** A subject template using both placeholders: the identifier text and
      the name appear exactly where the placeholders stood, whatever the
      name contains. */
  lemma SubjectScenario(id: Id, name: string)
    ensures Substitute("%UUID% (%NAME%) is down", id, name) == Hyphenated(id) + " (" + name + ") is down"
  {
    var h := Hyphenated(id);
    assert "%UUID% (%NAME%) is down" == UUID_PLACEHOLDER + " (%NAME%) is down";
    FirstPass(h);
    assert forall k :: 0 <= k < |h| ==> h[k] != '%' by {
      forall k | 0 <= k < |h| ensures h[k] != '%' {
        assert IsHyphenPosition(k) || IsHexChar(h[k]);
      }
    }
    SecondPass(h, name);
  }

  /** Replacing `%UUID%` touches only the leading placeholder. */
  lemma FirstPass(h: string)
    ensures Replace(UUID_PLACEHOLDER + " (%NAME%) is down", UUID_PLACEHOLDER, h) == h + " (%NAME%) is down"
  {
    var tail := " (%NAME%) is down";
    assert Replace(tail, UUID_PLACEHOLDER, h) == tail by {
      assert 'U' in UUID_PLACEHOLDER && 'U' !in tail;
      AbsentCharacter(tail, UUID_PLACEHOLDER, 'U');
      ReplaceUnmatched(tail, UUID_PLACEHOLDER, h);
    }
    ReplaceAtMatch(tail, UUID_PLACEHOLDER, h);
  }

  /** The identifier text has no '%', so only `%NAME%` matches in the second pass. */
  lemma SecondPass(h: string, name: string)
    requires forall k :: 0 <= k < |h| ==> h[k] != '%'
    ensures Replace(h + " (%NAME%) is down", NAME_PLACEHOLDER, name) == h + " (" + name + ") is down"
  {
    assert h + " (%NAME%) is down" == (h + " (") + (NAME_PLACEHOLDER + ") is down");
    ReplaceBetween(h + " (", ") is down", NAME_PLACEHOLDER, name);
  }
}

=== FILE: registry.dfy ===
/** The server registry: the configured roster folded, entry by entry, into
    the map of last heartbeats (every server starts out as just heard from)
    and the map of display names. */
module Registry {
  import opened Uuid
  import opened Clock

  /** One roster entry of the configuration, already parsed. */
  datatype Server = Server(name: string, id: Id)

  /** The two maps built at startup. */
  datatype Registry = Registry(heartbeats: map<Id, Time>, names: map<Id, string>)

  function Ids(roster: seq<Server>): set<Id> {
    set i | 0 <= i < |roster| :: roster[i].id
  }

  /** `i` is the last roster position carrying identifier `id`. */
  predicate IsLastEntry(roster: seq<Server>, id: Id, i: int) {
    && 0 <= i < |roster|
    && roster[i].id == id
    && forall j :: i < j < |roster| ==> roster[j].id != id
  }

  /** The roster position whose entry survives for `id`. */
  function LastEntry(roster: seq<Server>, id: Id): (i: nat)
    requires id in Ids(roster)
    ensures IsLastEntry(roster, id, i)
  {
    var n := |roster| - 1;
    if roster[n].id == id then n
    else
      assert id in Ids(roster[..n]) by {
        var k :| 0 <= k < |roster| && roster[k].id == id;
        assert roster[..n][k].id == id;
      }
      LastEntry(roster[..n], id)
  }

  /** The startup loop: entry `i` is inserted into both maps with the clock
      reading `clock[i]` taken while it was processed. A repeated identifier
      overwrites the earlier entry in both maps. */
  function Load(roster: seq<Server>, clock: seq<Time>): (r: Registry)
    requires |clock| == |roster|
    ensures r.heartbeats.Keys == Ids(roster)
    ensures r.names.Keys == Ids(roster)
    ensures forall id :: id in r.names ==>
              && r.names[id] == roster[LastEntry(roster, id)].name
              && r.heartbeats[id] == clock[LastEntry(roster, id)]
  {
    if roster == [] then Registry(map[], map[])
    else
      var n := |roster| - 1;
      var prev := Load(roster[..n], clock[..n]);
      var s := roster[n];
      assert Ids(roster) == Ids(roster[..n]) + {s.id} by {
        assert forall k :: 0 <= k < n ==> roster[..n][k] == roster[k];
      }
      Registry(prev.heartbeats[s.id := clock[n]], prev.names[s.id := s.name])
  }

  /** Every configured server starts out as heard from at startup, when the
      clock is read at one instant. */
  lemma LoadAtStartup(roster: seq<Server>, startup: Time)
    ensures var r := Load(roster, seq(|roster|, _ => startup));
            forall id :: id in r.heartbeats ==> r.heartbeats[id] == startup
  {
  }

  /** Without repeated identifiers, every entry of the roster is found in the
      registry under its own identifier. */
  lemma LoadDistinct(roster: seq<Server>, clock: seq<Time>)
    requires |clock| == |roster|
    requires forall i, j :: 0 <= i < j < |roster| ==> roster[i].id != roster[j].id
    ensures var r := Load(roster, clock);
            forall i :: 0 <= i < |roster| ==>
              r.names[roster[i].id] == roster[i].name && r.heartbeats[roster[i].id] == clock[i]
  {
    var r := Load(roster, clock);
    forall i | 0 <= i < |roster|
      ensures r.names[roster[i].id] == roster[i].name && r.heartbeats[roster[i].id] == clock[i]
    {
      assert roster[i].id in Ids(roster);
      assert IsLastEntry(roster, roster[i].id, i);
      var k := LastEntry(roster, roster[i].id);
      assert k == i;
    }
  }
}

=== FILE: sweeper.dfy ===
/** One pass of the liveness sweep: every registered server, in the map's
    iteration order, is classified as up or down from its last heartbeat,
    and a server whose classification differs from its membership in the
    list of down servers is moved and announced with an event. */
module Sweeper {
  import opened Wrappers
  import opened Uuid
  import opened Clock

  /** A state transition to be announced by the notifier. */
  datatype Event =
    | Down(id: Id, name: string)
    | Up(id: Id, name: string)

  /** The list of down servers and the events announced while building it. */
  datatype Outcome = Outcome(down: seq<Id>, events: seq<Event>)

  predicate NoDuplicates(down: seq<Id>) {
    forall i, j :: 0 <= i < j < |down| ==> down[i] != down[j]
  }

  /** `down.iter().position(|d| d == id)`: the first index holding `id`. */
  function Position(down: seq<Id>, id: Id): (r: Option<nat>)
    ensures r.None? <==> id !in down
    ensures r.Some? ==> r.value < |down| && down[r.value] == id
    ensures r.Some? ==> forall j :: 0 <= j < r.value ==> down[j] != id
  {
    if down == [] then None
    else if down[0] == id then Some(0)
    else
      match Position(down[1..], id)
      case None => None
      case Some(k) => Some(k + 1)
  }

  /** `Vec::remove(i)`: the list without its `i`-th element. */
  function RemoveAt(s: seq<Id>, i: nat): (r: seq<Id>)
    requires i < |s|
    ensures multiset(r) + multiset{s[i]} == multiset(s)
    ensures r[..i] == s[..i] && r[i..] == s[i + 1..]
  {
    assert s == s[..i] + [s[i]] + s[i + 1..];
    s[..i] + s[i + 1..]
  }

  /** One iteration of the sweep loop, for server `id`. A server silent for
      more than the threshold that is not yet listed is appended and
      announced down; a server heard from within the threshold that is
      listed has its first occurrence removed and is announced up; in every
      other case nothing changes. */
  function Check(heartbeats: map<Id, Time>, names: map<Id, string>, down: seq<Id>, now: Time, id: Id)
    : (r: Outcome)
    requires id in heartbeats && id in names
    ensures NoDuplicates(down) ==> NoDuplicates(r.down)
    ensures NoDuplicates(down) ==> (id in r.down <==> Expired(now, heartbeats[id]))
    ensures forall k :: k != id ==> (k in r.down <==> k in down)
    ensures (id in down <==> Expired(now, heartbeats[id])) ==> r == Outcome(down, [])
    ensures !(id in down <==> id in r.down) ==>
              r.events == [if id in r.down then Down(id, names[id]) else Up(id, names[id])]
    ensures NoDuplicates(down) && (id in down <==> id in r.down) ==> r.events == []
  {
    if Expired(now, heartbeats[id]) then
      if id !in down then Outcome(down + [id], [Down(id, names[id])])
      else Outcome(down, [])
    else
      match Position(down, id)
      case Some(i) =>
        RemoveAtMembership(down, i);
        Outcome(RemoveAt(down, i), [Up(id, names[id])])
      case None => Outcome(down, [])
  }

  /** Removing position `i` leaves every other identifier's membership as it
      was; in a list without duplicates it removes `s[i]` altogether and the
      list stays duplicate-free. */
  lemma RemoveAtMembership(s: seq<Id>, i: nat)
    requires i < |s|
    ensures forall k :: k != s[i] ==> (k in RemoveAt(s, i) <==> k in s)
    ensures NoDuplicates(s) ==> NoDuplicates(RemoveAt(s, i)) && s[i] !in RemoveAt(s, i)
  {
    var r := RemoveAt(s, i);
    assert forall k :: 0 <= k < |r| ==> r[k] == if k < i then s[k] else s[k + 1];
    forall k | k in s && k != s[i] ensures k in r {
      var j :| 0 <= j < |s| && s[j] == k;
      assert r[if j < i then j else j - 1] == k;
    }
  }

  /** The sweep's requirement on the iteration order: every visited
      identifier is registered under both maps. */
  predicate Registered(heartbeats: map<Id, Time>, names: map<Id, string>, order: seq<Id>) {
    forall k :: k in order ==> k in heartbeats && k in names
  }

  /** One full pass: `Check` for each identifier of `order` in turn, the
      events concatenated in that order. With a duplicate-free list to start
      from, the list afterwards holds exactly the visited servers that are
      silent for longer than the threshold, plus the unvisited ones it held
      before. */
  function Sweep(heartbeats: map<Id, Time>, names: map<Id, string>, down: seq<Id>, now: Time, order: seq<Id>)
    : (r: Outcome)
    requires Registered(heartbeats, names, order)
    ensures NoDuplicates(down) ==> NoDuplicates(r.down)
    ensures NoDuplicates(down) ==>
              forall k :: k in r.down <==> if k in order then Expired(now, heartbeats[k]) else k in down
    decreases |order|
  {
    if order == [] then Outcome(down, [])
    else
      var c := Check(heartbeats, names, down, now, order[0]);
      var rest := Sweep(heartbeats, names, c.down, now, order[1..]);
      assert forall k :: k in order <==> k == order[0] || k in order[1..];
      Outcome(rest.down, c.events + rest.events)
  }

  /** `e` announces a change of `e.id`'s membership between `before` and
      `after`, in the right direction and with the registered name. */
  predicate IsTransition(e: Event, names: map<Id, string>, before: seq<Id>, after: seq<Id>) {
    && e.id in names
    && e.name == names[e.id]
    && if e.Down? then e.id !in before && e.id in after else e.id in before && e.id !in after
  }

  /** No two events of a list concern the same server. */
  predicate OnePerServer(events: seq<Event>) {
    forall i, j :: 0 <= i < j < |events| ==> events[i].id != events[j].id
  }

  /** Events are emitted exactly on flips: a down event for a server iff the
      pass added it to the list, an up event iff the pass removed it, and
      never two events for one server in one pass. */
  lemma {:induction false} SweepEvents(heartbeats: map<Id, Time>, names: map<Id, string>, down: seq<Id>, now: Time, order: seq<Id>)
    requires Registered(heartbeats, names, order)
    requires NoDuplicates(down)
    ensures var r := Sweep(heartbeats, names, down, now, order);
            && (forall e :: e in r.events <==> IsTransition(e, names, down, r.down))
            && OnePerServer(r.events)
    decreases |order|
  {
    if order != [] {
      var id := order[0];
      var c := Check(heartbeats, names, down, now, id);
      var rest := Sweep(heartbeats, names, c.down, now, order[1..]);
      SweepEvents(heartbeats, names, c.down, now, order[1..]);
      assert id in rest.down <==> id in c.down;
      JoinEvents(names, down, c.down, rest.down, id, c.events, rest.events);
    }
  }

  /** The events of one check followed by those of the rest of the pass:
      the check flips at most `id`, and the rest never touches `id` again,
      so together they are exactly the flips of the whole pass. */
  lemma JoinEvents(names: map<Id, string>, down: seq<Id>, mid: seq<Id>, after: seq<Id>, id: Id,
                   first: seq<Event>, rest: seq<Event>)
    requires id in names
    requires forall k :: k != id ==> (k in mid <==> k in down)
    requires (id in down <==> id in mid) ==> first == []
    requires !(id in down <==> id in mid) ==>
               first == [if id in mid then Down(id, names[id]) else Up(id, names[id])]
    requires id in after <==> id in mid
    requires forall e :: e in rest <==> IsTransition(e, names, mid, after)
    requires OnePerServer(rest)
    ensures forall e :: e in first + rest <==> IsTransition(e, names, down, after)
    ensures OnePerServer(first + rest)
  {
    var all := first + rest;
    forall e | e in rest ensures e.id != id {
      assert IsTransition(e, names, mid, after);
    }
    forall e ensures e in all <==> IsTransition(e, names, down, after) {
      if e.id == id {
        assert e !in rest;
      } else {
        assert e !in first;
        assert e.id in down <==> e.id in mid;
      }
    }
    forall i, j | 0 <= i < j < |all| ensures all[i].id != all[j].id {
      if i < |first| {
        assert all[i].id == id;
        assert all[j] == rest[j - |first|];
      } else {
        assert all[i] == rest[i - |first|];
        assert all[j] == rest[j - |first|];
      }
    }
  }

  /** When every visited server's membership already matches its
      classification, the pass changes nothing and announces nothing. */
  lemma {:induction false} SweepStable(heartbeats: map<Id, Time>, names: map<Id, string>, down: seq<Id>, now: Time, order: seq<Id>)
    requires Registered(heartbeats, names, order)
    requires forall k :: k in order ==> (k in down <==> Expired(now, heartbeats[k]))
    ensures Sweep(heartbeats, names, down, now, order) == Outcome(down, [])
    decreases |order|
  {
    if order != [] {
      assert order[0] in order;
      SweepStable(heartbeats, names, down, now, order[1..]);
    }
  }

  /** A second pass at the same instant, with no heartbeat in between and in
      any order over the same servers, announces nothing and leaves the list
      exactly as the first pass left it. */
  lemma SweepIdempotent(heartbeats: map<Id, Time>, names: map<Id, string>, down: seq<Id>, now: Time,
                        order: seq<Id>, again: seq<Id>)
    requires Registered(heartbeats, names, order)
    requires NoDuplicates(down)
    requires forall k :: k in again ==> k in order
    ensures var first := Sweep(heartbeats, names, down, now, order);
            Sweep(heartbeats, names, first.down, now, again) == Outcome(first.down, [])
  {
    var first := Sweep(heartbeats, names, down, now, order);
    SweepStable(heartbeats, names, first.down, now, again);
  }

  /** The outcome of a pass does not depend on the iteration order: two
      orders over the same servers give the same set of down servers and the
      same events. */
  lemma SweepOrderIndependent(heartbeats: map<Id, Time>, names: map<Id, string>, down: seq<Id>, now: Time,
                              order: seq<Id>, other: seq<Id>)
    requires Registered(heartbeats, names, order)
    requires forall k :: k in order <==> k in other
    requires NoDuplicates(down)
    ensures var r1, r2 := Sweep(heartbeats, names, down, now, order), Sweep(heartbeats, names, down, now, other);
            && (forall k :: k in r1.down <==> k in r2.down)
            && (forall e :: e in r1.events <==> e in r2.events)
  {
    SweepEvents(heartbeats, names, down, now, order);
    SweepEvents(heartbeats, names, down, now, other);
  }

  /** Without new heartbeats a later pass never announces a recovery, and it
      never announces again a server the earlier pass left down. */
  lemma SweepLater(heartbeats: map<Id, Time>, names: map<Id, string>, down: seq<Id>, now: Time, later: Time,
                   order: seq<Id>)
    requires Registered(heartbeats, names, order)
    requires NoDuplicates(down)
    requires now <= later
    ensures var first := Sweep(heartbeats, names, down, now, order);
            var second := Sweep(heartbeats, names, first.down, later, order);
            forall e :: e in second.events ==> e.Down? && e.id !in first.down
  {
    var first := Sweep(heartbeats, names, down, now, order);
    var second := Sweep(heartbeats, names, first.down, later, order);
    SweepEvents(heartbeats, names, first.down, later, order);
    forall e | e in second.events ensures e.Down? && e.id !in first.down {
      if e.Up? {
        assert e.id in first.down && e.id !in second.down;
        ExpiryPersists(heartbeats[e.id], now, later);
      }
    }
  }
}

=== FILE: template.dfy ===
/** Placeholder substitution in notification templates. The monitor fills a
    template by replacing `%UUID%` with the server's identifier text and then
    `%NAME%` with its display name, using Rust's `str::replace`: every
    non-overlapping occurrence, found scanning from left to right, is
    replaced, and the replacement text is never rescanned. */
module Template {
  import opened Uuid

  const UUID_PLACEHOLDER: string := "%UUID%"
  const NAME_PLACEHOLDER: string := "%NAME%"

  /** `pat` occurs in `s` starting at position `i`. */
  predicate OccursAt(s: string, pat: string, i: int) {
    0 <= i && i + |pat| <= |s| && s[i..i + |pat|] == pat
  }

  predicate Occurs(s: string, pat: string) {
    exists i | 0 <= i <= |s| :: OccursAt(s, pat, i)
  }

  /** `s.replace(pat, rep)` for a non-empty pattern (both placeholders are).
      A replacement as long as the pattern keeps the text's length. */
  function Replace(s: string, pat: string, rep: string): (r: string)
    requires pat != []
    ensures |rep| == |pat| ==> |r| == |s|
    decreases |s|
  {
    if |s| < |pat| then s
    else if s[..|pat|] == pat then rep + Replace(s[|pat|..], pat, rep)
    else [s[0]] + Replace(s[1..], pat, rep)
  }

  /** A text with no occurrence of the pattern is returned unchanged. */
  lemma {:induction false} ReplaceUnmatched(s: string, pat: string, rep: string)
    requires pat != []
    ensures !Occurs(s, pat) ==> Replace(s, pat, rep) == s
    decreases |s|
  {
    if |s| >= |pat| && !Occurs(s, pat) {
      assert !OccursAt(s, pat, 0);
      assert !Occurs(s[1..], pat) by {
        forall i | 0 <= i <= |s[1..]| ensures !OccursAt(s[1..], pat, i) {
          OccursAtTail(s, pat, i);
        }
      }
      ReplaceUnmatched(s[1..], pat, rep);
      assert s == [s[0]] + s[1..];
    }
  }

  /** Replacing a pattern by itself changes nothing. */
  lemma {:induction false} ReplaceWithItself(s: string, pat: string)
    requires pat != []
    ensures Replace(s, pat, pat) == s
    decreases |s|
  {
    if |s| < |pat| {
    } else if s[..|pat|] == pat {
      ReplaceWithItself(s[|pat|..], pat);
      assert s == s[..|pat|] + s[|pat|..];
    } else {
      ReplaceWithItself(s[1..], pat);
      assert s == [s[0]] + s[1..];
    }
  }

  /** A replacement text that shares no character with the pattern. */
  predicate Foreign(rep: string, pat: string) {
    forall k :: 0 <= k < |rep| ==> rep[k] !in pat
  }

  /** A prefix of the output made only of pattern characters contains no
      replacement text, so it is copied unchanged from the input. */
  lemma {:induction false} KeptPrefix(s: string, pat: string, rep: string, m: nat)
    requires pat != [] && rep != [] && Foreign(rep, pat)
    requires m <= |Replace(s, pat, rep)|
    ensures (forall k :: 0 <= k < m ==> Replace(s, pat, rep)[k] in pat) ==>
              m <= |s| && Replace(s, pat, rep)[..m] == s[..m]
    decreases |s|
  {
    var r := Replace(s, pat, rep);
    if |s| < |pat| {
    } else if s[..|pat|] == pat {
      if m > 0 {
        assert r[0] == rep[0] && rep[0] !in pat;
      }
    } else if m > 0 {
      var r' := Replace(s[1..], pat, rep);
      assert r == [s[0]] + r';
      assert forall k :: 0 <= k < m - 1 ==> r'[k] == r[k + 1];
      KeptPrefix(s[1..], pat, rep, m - 1);
      assert r[..m] == [s[0]] + r'[..m - 1];
    }
  }

  /** When the replacement text shares no character with the pattern, no
      occurrence of the pattern is left after the replacement. */
  lemma {:induction false} ReplaceLeavesNoOccurrence(s: string, pat: string, rep: string)
    requires pat != [] && rep != [] && Foreign(rep, pat)
    ensures !Occurs(Replace(s, pat, rep), pat)
    decreases |s|
  {
    var r := Replace(s, pat, rep);
    if |s| < |pat| {
    } else if s[..|pat|] == pat {
      var r' := Replace(s[|pat|..], pat, rep);
      ReplaceLeavesNoOccurrence(s[|pat|..], pat, rep);
      assert r == rep + r';
      forall i | 0 <= i && i + |pat| <= |r| ensures !OccursAt(r, pat, i) {
        if i < |rep| {
          assert r[i..i + |pat|][0] == rep[i] && rep[i] != pat[0];
        } else {
          assert r[i..i + |pat|] == r'[i - |rep|..i - |rep| + |pat|];
          assert !OccursAt(r', pat, i - |rep|);
        }
      }
    } else {
      var r' := Replace(s[1..], pat, rep);
      ReplaceLeavesNoOccurrence(s[1..], pat, rep);
      assert r == [s[0]] + r';
      forall i | 0 <= i && i + |pat| <= |r| ensures !OccursAt(r, pat, i) {
        if i == 0 {
          KeptPrefix(s, pat, rep, |pat|);
          if forall k :: 0 <= k < |pat| ==> r[k] in pat {
            assert r[..|pat|] == s[..|pat|];
          } else {
            var k :| 0 <= k < |pat| && r[k] !in pat;
            assert r[..|pat|][k] == r[k] && pat[k] in pat;
          }
        } else {
          assert r[i..i + |pat|] == r'[i - 1..i - 1 + |pat|];
          assert !OccursAt(r', pat, i - 1);
        }
      }
    }
  }

  /** Text that cannot start an occurrence of the pattern is copied as it is,
      and the scan resumes right after it. */
  lemma {:induction false} ReplaceSkipsPrefix(a: string, x: string, pat: string, rep: string)
    requires pat != []
    requires forall k :: 0 <= k < |a| ==> a[k] != pat[0]
    ensures Replace(a + x, pat, rep) == a + Replace(x, pat, rep)
    decreases |a|
  {
    if a != [] {
      ReplaceSkipsPrefix(a[1..], x, pat, rep);
      ReplaceSkipsFirst(a, x, pat, rep);
    } else {
      assert a + x == x;
    }
  }

  /** One step of `ReplaceSkipsPrefix`: a first character that cannot start
      an occurrence is copied in front of what the rest of the prefix gives. */
  lemma ReplaceSkipsFirst(a: string, x: string, pat: string, rep: string)
    requires pat != [] && a != [] && a[0] != pat[0]
    requires Replace(a[1..] + x, pat, rep) == a[1..] + Replace(x, pat, rep)
    ensures Replace(a + x, pat, rep) == a + Replace(x, pat, rep)
  {
    var tail := Replace(x, pat, rep);
    assert Replace([a[0]] + (a[1..] + x), pat, rep) == [a[0]] + (a[1..] + tail) by {
      if |a[1..] + x| + 1 >= |pat| {
        assert ([a[0]] + (a[1..] + x))[..|pat|][0] == a[0];
      }
      ReplaceAtMismatch(a[0], a[1..] + x, pat, rep);
    }
    assert a + x == [a[0]] + (a[1..] + x) && a + tail == [a[0]] + (a[1..] + tail) by {
      assert a == [a[0]] + a[1..];
    }
  }

  /** A text lacking one of the pattern's characters cannot contain it. */
  lemma AbsentCharacter(s: string, pat: string, c: char)
    requires c in pat && c !in s
    ensures !Occurs(s, pat)
  {
    var j :| 0 <= j < |pat| && pat[j] == c;
    forall i | 0 <= i && i + |pat| <= |s| ensures !OccursAt(s, pat, i) {
      assert s[i..i + |pat|][j] == s[i + j];
    }
  }

  /** A match at the front is replaced and the scan resumes after it. */
  lemma ReplaceAtMatch(x: string, pat: string, rep: string)
    requires pat != []
    ensures Replace(pat + x, pat, rep) == rep + Replace(x, pat, rep)
  {
    assert (pat + x)[..|pat|] == pat && (pat + x)[|pat|..] == x;
  }

  /** A character that does not start a match is copied and the scan moves on. */
  lemma ReplaceAtMismatch(c: char, x: string, pat: string, rep: string)
    requires pat != []
    requires |x| + 1 >= |pat| ==> ([c] + x)[..|pat|] != pat
    ensures Replace([c] + x, pat, rep) == [c] + Replace(x, pat, rep)
  {
    assert ([c] + x)[1..] == x;
    if |x| + 1 < |pat| {
      assert Replace(x, pat, rep) == x;
    }
  }

  /** Dropping the first character moves every later occurrence one place
      to the left. */
  lemma OccursAtTail(s: string, pat: string, j: nat)
    requires s != []
    ensures OccursAt(s[1..], pat, j) <==> OccursAt(s, pat, j + 1)
  {
    if j + 1 + |pat| <= |s| {
      assert s[1..][j..j + |pat|] == s[j + 1..j + 1 + |pat|];
    }
  }

  /** Text in which no match starts is copied, the match that follows it
      becomes the replacement, and the scan resumes after that match. */
  lemma {:induction false} ReplaceBeforeMatch(a: string, y: string, pat: string, rep: string)
    requires pat != []
    requires forall j :: 0 <= j < |a| ==> !OccursAt(a + (pat + y), pat, j)
    ensures Replace(a + (pat + y), pat, rep) == a + (rep + Replace(y, pat, rep))
    decreases |a|
  {
    var s := a + (pat + y);
    var r := Replace(y, pat, rep);
    if a == [] {
      assert s == pat + y;
      ReplaceAtMatch(y, pat, rep);
    } else {
      var t := a[1..] + (pat + y);
      assert s[1..] == t;
      assert Replace(t, pat, rep) == a[1..] + (rep + r) by {
        forall j | 0 <= j < |a| - 1 ensures !OccursAt(t, pat, j) {
          OccursAtTail(s, pat, j);
        }
        ReplaceBeforeMatch(a[1..], y, pat, rep);
      }
      assert Replace(s, pat, rep) == [s[0]] + Replace(t, pat, rep) by {
        assert !OccursAt(s, pat, 0);
      }
      assert [a[0]] + (a[1..] + (rep + r)) == a + (rep + r) by {
        assert a == [a[0]] + a[1..];
      }
    }
  }

  /** The leftmost match is the one replaced: the text before it is copied,
      the match becomes the replacement, and the scan resumes after the
      match, never inside the replacement. */
  lemma ReplaceLeftmost(s: string, pat: string, rep: string, i: nat)
    requires pat != []
    requires OccursAt(s, pat, i)
    requires forall j :: 0 <= j < i ==> !OccursAt(s, pat, j)
    ensures Replace(s, pat, rep) == s[..i] + rep + Replace(s[i + |pat|..], pat, rep)
  {
    var a, y := s[..i], s[i + |pat|..];
    SplitAtMatch(s, pat, i);
    ReplaceBeforeMatch(a, y, pat, rep);
    Associate(a, rep, Replace(y, pat, rep));
  }

  /** A text is what precedes a match, the match, and what follows it. */
  lemma SplitAtMatch(s: string, pat: string, i: nat)
    requires OccursAt(s, pat, i)
    ensures s == s[..i] + (pat + s[i + |pat|..])
  {
    assert s[i..i + |pat|] == pat;
    assert s == s[..i] + s[i..];
    assert s[i..] == s[i..i + |pat|] + s[i + |pat|..];
  }

  /** A pattern standing between texts that cannot start a match is the only
      one replaced. */
  lemma ReplaceBetween(a: string, b: string, pat: string, rep: string)
    requires pat != []
    requires forall k :: 0 <= k < |a| ==> a[k] != pat[0]
    requires forall k :: 0 <= k < |b| ==> b[k] != pat[0]
    ensures Replace(a + (pat + b), pat, rep) == a + rep + b
  {
    ReplaceSkipsPrefix(a, pat + b, pat, rep);
    ReplaceAtMatch(b, pat, rep);
    ReplaceSkipsPrefix(b, [], pat, rep);
    assert b + [] == b;
  }

  /** The chain `.replace("%UUID%", id).replace("%NAME%", name)` applied to
      each template of a notification. */
  function Substitute(template: string, id: Id, name: string): (r: string)
    ensures !Occurs(template, UUID_PLACEHOLDER) && !Occurs(template, NAME_PLACEHOLDER) ==> r == template
    ensures !Occurs(template, UUID_PLACEHOLDER) ==> r == Replace(template, NAME_PLACEHOLDER, name)
  {
    var filled := Replace(template, UUID_PLACEHOLDER, Hyphenated(id));
    ReplaceUnmatched(template, UUID_PLACEHOLDER, Hyphenated(id));
    ReplaceUnmatched(filled, NAME_PLACEHOLDER, name);
    Replace(filled, NAME_PLACEHOLDER, name)
  }

  /** `a` holds no '%' and `b` does not begin with `UUID%`, so the closing
      '%' of a `%NAME%` placeholder cannot take part in a `%UUID%` match. */
  predicate NameStandsAlone(a: string, b: string) {
    && (forall k :: 0 <= k < |a| ==> a[k] != '%')
    && !(|b| >= 5 && b[..5] == "UUID%")
  }

  /** A `%NAME%` placeholder that no `%UUID%` match overlaps receives the
      name verbatim, and the rest of the template is filled on its own. */
  lemma SubstituteName(a: string, b: string, id: Id, name: string)
    requires NameStandsAlone(a, b)
    ensures Substitute(a + (NAME_PLACEHOLDER + b), id, name) == a + name + Substitute(b, id, name)
  {
    var h := Hyphenated(id);
    var r := Replace(b, UUID_PLACEHOLDER, h);
    NamePassesFirstPass(a, b, h);
    assert Replace(a + (NAME_PLACEHOLDER + r), NAME_PLACEHOLDER, name) == a + (name + Replace(r, NAME_PLACEHOLDER, name)) by {
      ReplaceSkipsPrefix(a, NAME_PLACEHOLDER + r, NAME_PLACEHOLDER, name);
      ReplaceAtMatch(r, NAME_PLACEHOLDER, name);
    }
    Associate(a, name, Replace(r, NAME_PLACEHOLDER, name));
  }

  /** A `%UUID%` placeholder after text without '%' receives the identifier
      text, and the rest of the template is filled on its own. The
      identifier text holds no '%', so no `%NAME%` match can straddle it. */
  lemma SubstituteUuid(a: string, b: string, id: Id, name: string)
    requires forall k :: 0 <= k < |a| ==> a[k] != '%'
    ensures Substitute(a + (UUID_PLACEHOLDER + b), id, name) == a + Hyphenated(id) + Substitute(b, id, name)
  {
    var h := Hyphenated(id);
    var r := Replace(b, UUID_PLACEHOLDER, h);
    ReplaceSkipsPrefix(a, UUID_PLACEHOLDER + b, UUID_PLACEHOLDER, h);
    ReplaceAtMatch(b, UUID_PLACEHOLDER, h);
    NoPercentInIdText(id);
    assert forall k :: 0 <= k < |a + h| ==> (a + h)[k] != '%';
    ReplaceSkipsPrefix(a + h, r, NAME_PLACEHOLDER, name);
    Associate(a, h, r);
  }

  /** The `%UUID%` pass leaves a `%NAME%` placeholder that no match overlaps
      in place. */
  lemma NamePassesFirstPass(a: string, b: string, h: string)
    requires NameStandsAlone(a, b)
    ensures Replace(a + (NAME_PLACEHOLDER + b), UUID_PLACEHOLDER, h)
         == a + (NAME_PLACEHOLDER + Replace(b, UUID_PLACEHOLDER, h))
  {
    var r := Replace(b, UUID_PLACEHOLDER, h);
    var rest := "NAME" + (['%'] + b);
    assert Replace(['%'] + b, UUID_PLACEHOLDER, h) == ['%'] + r by {
      if |b| + 1 >= 6 {
        assert (['%'] + b)[..6][1..] == b[..5];
      }
      ReplaceAtMismatch('%', b, UUID_PLACEHOLDER, h);
    }
    assert Replace(rest, UUID_PLACEHOLDER, h) == "NAME" + (['%'] + r) by {
      ReplaceSkipsPrefix("NAME", ['%'] + b, UUID_PLACEHOLDER, h);
    }
    assert Replace(['%'] + rest, UUID_PLACEHOLDER, h) == ['%'] + ("NAME" + (['%'] + r)) by {
      assert (['%'] + rest)[..6][1] != UUID_PLACEHOLDER[1];
      ReplaceAtMismatch('%', rest, UUID_PLACEHOLDER, h);
    }
    NameShape(b);
    NameShape(r);
    ReplaceSkipsPrefix(a, NAME_PLACEHOLDER + b, UUID_PLACEHOLDER, h);
  }

  /** `%NAME%` followed by `x`, spelt out character group by character group. */
  lemma NameShape(x: string)
    ensures NAME_PLACEHOLDER + x == ['%'] + ("NAME" + (['%'] + x))
  {
  }

  lemma Associate(a: string, b: string, c: string)
    ensures a + (b + c) == a + b + c
  {
  }

  /** The identifier text is hex digits and hyphens only. */
  lemma NoPercentInIdText(id: Id)
    ensures forall k :: 0 <= k < |Hyphenated(id)| ==> Hyphenated(id)[k] != '%'
  {
    var h := Hyphenated(id);
    forall k | 0 <= k < |h| ensures h[k] != '%' {
      assert IsHyphenPosition(k) || IsHexChar(h[k]);
    }
  }

  /** When `%NAME%` is directly followed by `UUID%`, the identifier pass
      takes the placeholder's closing '%' as the start of `%UUID%`, so the
      name never appears in the output. */
  lemma NameLostBeforeUuidText(id: Id, name: string)
    ensures Substitute("%NAME%UUID%", id, name) == "%NAME" + Hyphenated(id)
  {
    var h := Hyphenated(id);
    LostNameShape(h);
    assert Replace(['%'] + ("NAME" + UUID_PLACEHOLDER), UUID_PLACEHOLDER, h) == ['%'] + ("NAME" + h) by {
      assert Replace("NAME" + UUID_PLACEHOLDER, UUID_PLACEHOLDER, h) == "NAME" + h by {
        ReplaceSkipsPrefix("NAME", UUID_PLACEHOLDER, UUID_PLACEHOLDER, h);
        assert Replace(UUID_PLACEHOLDER, UUID_PLACEHOLDER, h) == h by {
          ReplaceAtMatch([], UUID_PLACEHOLDER, h);
          assert UUID_PLACEHOLDER + [] == UUID_PLACEHOLDER;
        }
      }
      assert (['%'] + ("NAME" + UUID_PLACEHOLDER))[..6][1] != UUID_PLACEHOLDER[1];
      ReplaceAtMismatch('%', "NAME" + UUID_PLACEHOLDER, UUID_PLACEHOLDER, h);
    }
    assert Replace(['%'] + ("NAME" + h), NAME_PLACEHOLDER, name) == ['%'] + ("NAME" + h) by {
      NoPercentInIdText(id);
      assert Replace("NAME" + h, NAME_PLACEHOLDER, name) == "NAME" + h by {
        ReplaceSkipsPrefix("NAME" + h, [], NAME_PLACEHOLDER, name);
        assert "NAME" + h + [] == "NAME" + h;
      }
      if |"NAME" + h| + 1 >= 6 {
        assert (['%'] + ("NAME" + h))[..6][5] == h[0];
      }
      ReplaceAtMismatch('%', "NAME" + h, NAME_PLACEHOLDER, name);
    }
  }

  /** The template of `NameLostBeforeUuidText` and its output, regrouped. */
  lemma LostNameShape(h: string)
    ensures "%NAME%UUID%" == ['%'] + ("NAME" + UUID_PLACEHOLDER)
    ensures ['%'] + ("NAME" + h) == "%NAME" + h
  {
  }

  /** The identifier text never contains a placeholder character, so the
      first replacement fills every `%UUID%` of the template. */
  lemma UuidPlaceholdersFilled(template: string, id: Id)
    ensures !Occurs(Replace(template, UUID_PLACEHOLDER, Hyphenated(id)), UUID_PLACEHOLDER)
  {
    var t := Hyphenated(id);
    assert Foreign(t, UUID_PLACEHOLDER) by {
      forall k | 0 <= k < |t| ensures t[k] !in UUID_PLACEHOLDER {
        assert IsHyphenPosition(k) || IsHexChar(t[k]);
      }
    }
    ReplaceLeavesNoOccurrence(template, UUID_PLACEHOLDER, t);
  }

  /** `%UUID%` is replaced before `%NAME%`, so the name is inserted verbatim:
      a name that itself contains `%UUID%` keeps that text literally. */
  lemma NameInsertedVerbatim(id: Id, name: string)
    ensures Substitute(NAME_PLACEHOLDER, id, name) == name
  {
    assert NAME_PLACEHOLDER[0..6][1] != UUID_PLACEHOLDER[1];
    assert !OccursAt(NAME_PLACEHOLDER, UUID_PLACEHOLDER, 0);
    assert NAME_PLACEHOLDER[..|NAME_PLACEHOLDER|] == NAME_PLACEHOLDER;
    assert NAME_PLACEHOLDER[|NAME_PLACEHOLDER|..] == [];
  }

  /** The order of the two replacements is observable: with the opposite
      order a name reading `%UUID%` would have been overwritten by the
      identifier text. */
  lemma ReplacementOrderMatters(id: Id)
    ensures Substitute(NAME_PLACEHOLDER, id, UUID_PLACEHOLDER) == UUID_PLACEHOLDER
    ensures Replace(Replace(NAME_PLACEHOLDER, NAME_PLACEHOLDER, UUID_PLACEHOLDER), UUID_PLACEHOLDER, Hyphenated(id)) == Hyphenated(id)
  {
    NameInsertedVerbatim(id, UUID_PLACEHOLDER);
    assert NAME_PLACEHOLDER[..|NAME_PLACEHOLDER|] == NAME_PLACEHOLDER;
    assert NAME_PLACEHOLDER[|NAME_PLACEHOLDER|..] == [];
    assert UUID_PLACEHOLDER[..|UUID_PLACEHOLDER|] == UUID_PLACEHOLDER;
    assert UUID_PLACEHOLDER[|UUID_PLACEHOLDER|..] == [];
    assert Hyphenated(id) + [] == Hyphenated(id);
  }
}

=== FILE: uuid.dfy ===
/** Server identifiers: opaque 128-bit values, and the canonical text form
    (lower-case hexadecimal, grouped 8-4-4-4-12 with hyphens) that the monitor
    writes into notification templates in place of `%UUID%`. */
module Uuid {
  import opened Wrappers

  /** Number of distinct 128-bit identifiers. */
  const ID_SPACE: nat := 0x1_0000_0000_0000_0000_0000_0000_0000_0000

  type Id = x: nat | x < ID_SPACE

  /** Length of the canonical hyphenated text form. */
  const TEXT_LENGTH: nat := 36

  predicate IsHexChar(c: char) {
    '0' <= c <= '9' || 'a' <= c <= 'f'
  }

  /** Positions of the four hyphens in the canonical text form. */
  predicate IsHyphenPosition(i: int) {
    i == 8 || i == 13 || i == 18 || i == 23
  }

  /** The shape `Hyphenated` produces: 36 characters, hyphens at the group
      boundaries and lower-case hexadecimal digits everywhere else. */
  predicate IsCanonical(t: string) {
    && |t| == TEXT_LENGTH
    && forall i :: 0 <= i < |t| ==> if IsHyphenPosition(i) then t[i] == '-' else IsHexChar(t[i])
  }

  function HexChar(d: nat): (c: char)
    requires d < 16
    ensures IsHexChar(c) && HexValue(c) == d
  {
    if d < 10 then ('0' as int + d) as char else ('a' as int + d - 10) as char
  }

  function HexValue(c: char): (d: nat)
    requires IsHexChar(c)
    ensures d < 16
  {
    if '0' <= c <= '9' then c as int - '0' as int else c as int - 'a' as int + 10
  }

  lemma HexCharOfValue(c: char)
    requires IsHexChar(c)
    ensures HexChar(HexValue(c)) == c
  {
  }

  function Pow16(n: nat): (p: nat)
    ensures p > 0
  {
    if n == 0 then 1 else 16 * Pow16(n - 1)
  }

  predicate AllHex(s: string) {
    forall i :: 0 <= i < |s| ==> IsHexChar(s[i])
  }

  /** The last `n` hexadecimal digits of `x`, most significant first. */
  function HexDigits(x: nat, n: nat): (s: string)
    ensures |s| == n
    ensures AllHex(s)
  {
    if n == 0 then [] else HexDigits(x / 16, n - 1) + [HexChar(x % 16)]
  }

  /** The number a string of hexadecimal digits denotes, most significant first. */
  function HexNumber(s: string): (v: nat)
    requires AllHex(s)
    ensures v < Pow16(|s|)
  {
    if s == [] then 0 else 16 * HexNumber(s[..|s| - 1]) + HexValue(s[|s| - 1])
  }

  /** `uuid.to_string()`: the 32 digits of the identifier split 8-4-4-4-12. */
  function Hyphenated(id: Id): (t: string)
    ensures IsCanonical(t)
  {
    Group(HexDigits(id, 32))
  }

  /** Where the `j`-th of the 32 digits sits in the 36-character text. */
  function TextIndex(j: nat): (i: nat)
    requires j < 32
    ensures i < TEXT_LENGTH && !IsHyphenPosition(i)
  {
    if j < 8 then j else if j < 12 then j + 1 else if j < 16 then j + 2 else if j < 20 then j + 3 else j + 4
  }

  /** Which of the 32 digits sits at a non-hyphen position `i` of the text. */
  function DigitIndex(i: nat): (j: nat)
    requires i < TEXT_LENGTH && !IsHyphenPosition(i)
    ensures j < 32 && TextIndex(j) == i
  {
    if i < 8 then i else if i < 13 then i - 1 else if i < 18 then i - 2 else if i < 23 then i - 3 else i - 4
  }

  /** Inserts the four hyphens into 32 hexadecimal digits. */
  function Group(h: string): (t: string)
    requires |h| == 32 && AllHex(h)
    ensures IsCanonical(t)
  {
    seq(TEXT_LENGTH, i requires 0 <= i < TEXT_LENGTH => if IsHyphenPosition(i) then '-' else h[DigitIndex(i)])
  }

  /** Drops the four hyphens of a 36-character text. */
  function Ungroup(t: string): (h: string)
    requires |t| == TEXT_LENGTH
    ensures |h| == 32
  {
    seq(32, j requires 0 <= j < 32 => t[TextIndex(j)])
  }

  lemma UngroupGroup(h: string)
    requires |h| == 32 && AllHex(h)
    ensures Ungroup(Group(h)) == h
  {
    var u := Ungroup(Group(h));
    forall j | 0 <= j < 32 ensures u[j] == h[j] {
      assert DigitIndex(TextIndex(j)) == j;
    }
  }

  lemma GroupUngroup(t: string)
    requires IsCanonical(t)
    ensures AllHex(Ungroup(t)) && Group(Ungroup(t)) == t
  {
    var h := Ungroup(t);
    assert AllHex(h);
    var g := Group(h);
    forall i | 0 <= i < TEXT_LENGTH ensures g[i] == t[i] {
    }
  }

  lemma Pow16Of32()
    ensures Pow16(32) == ID_SPACE
  {
    assert Pow16(8) == 0x1_0000_0000;
    assert Pow16(16) == 0x1_0000_0000 * Pow16(8) by { Pow16Add(8, 8); }
    assert Pow16(32) == Pow16(16) * Pow16(16) by { Pow16Add(16, 16); }
  }

  lemma {:induction false} Pow16Add(a: nat, b: nat)
    ensures Pow16(a + b) == Pow16(a) * Pow16(b)
  {
    if a > 0 {
      Pow16Add(a - 1, b);
    }
  }

  /** Reads back the canonical text form: the inverse of `Hyphenated`.
      Anything that is not exactly in canonical form yields `None`. */
  function FromHyphenated(t: string): (r: Option<Id>)
    ensures r.Some? <==> IsCanonical(t)
    ensures r.Some? ==> Hyphenated(r.value) == t
  {
    if !IsCanonical(t) then None
    else
      var h := Ungroup(t);
      GroupUngroup(t);
      HexNumberRoundTrip(h);
      Pow16Of32();
      Some(HexNumber(h))
  }

  /** Quotient and remainder are unique: the division identity, stated once for reuse. */
  lemma DivModUnique(x: nat, m: nat, a: nat, b: nat)
    requires m > 0 && x == m * a + b && b < m
    ensures x % m == b && x / m == a
  {
    var q, r := x / m, x % m;
    assert x == m * q + r;
    if a > q {
      MulSplit(m, q, a - q);
    } else if a < q {
      MulSplit(m, a, q - a);
    }
  }

  lemma MulSplit(m: nat, q: nat, k: nat)
    requires k >= 1
    ensures m * (q + k) >= m * q + m
  {
    assert m * (q + k) == m * q + m * k;
    assert m * k == m * (k - 1) + m;
  }

  /** Printing the last `n` digits and reading them back gives `x` modulo 16^n. */
  lemma {:induction false} HexDigitsRoundTrip(x: nat, n: nat)
    ensures HexNumber(HexDigits(x, n)) == x % Pow16(n)
  {
    if n > 0 {
      var s := HexDigits(x, n);
      assert s[..n - 1] == HexDigits(x / 16, n - 1);
      HexDigitsRoundTrip(x / 16, n - 1);
      assert HexNumber(s) == 16 * HexNumber(s[..n - 1]) + HexValue(s[n - 1]);
      assert s[n - 1] == HexChar(x % 16);
      ModShift(x, Pow16(n - 1));
    }
  }

  /** Dropping the last hexadecimal digit commutes with reduction modulo 16^n. */
  lemma ModShift(x: nat, p: nat)
    requires p > 0
    ensures x % (16 * p) == 16 * ((x / 16) % p) + x % 16
  {
    var q, r := x / 16, x % 16;
    var a, b := q / p, q % p;
    assert q == p * a + b;
    assert x == 16 * q + r;
    assert x == (16 * p) * a + (16 * b + r) by {
      assert 16 * q == 16 * (p * a) + 16 * b;
      assert 16 * (p * a) == (16 * p) * a;
    }
    assert 16 * b + r < 16 * p;
    DivModUnique(x, 16 * p, a, 16 * b + r);
  }

  /** Reading digits and printing the number back gives the same digits. */
  lemma {:induction false} HexNumberRoundTrip(s: string)
    requires AllHex(s)
    ensures HexDigits(HexNumber(s), |s|) == s
  {
    if s != [] {
      var n := |s|;
      var v := HexNumber(s);
      HexNumberRoundTrip(s[..n - 1]);
      HexCharOfValue(s[n - 1]);
      DivModUnique(v, 16, HexNumber(s[..n - 1]), HexValue(s[n - 1]));
      assert s == s[..n - 1] + [s[n - 1]];
    }
  }

  /** The text form of an identifier reads back as that identifier, so
      distinct servers are always named by distinct texts. */
  lemma HyphenatedRoundTrip(id: Id)
    ensures FromHyphenated(Hyphenated(id)) == Some(id)
  {
    var h := HexDigits(id, 32);
    HexDigitsRoundTrip(id, 32);
    Pow16Of32();
    UngroupGroup(h);
  }

  lemma HyphenatedInjective(a: Id, b: Id)
    ensures Hyphenated(a) == Hyphenated(b) <==> a == b
  {
    HyphenatedRoundTrip(a);
    HyphenatedRoundTrip(b);
  }
}

=== FILE: wrappers.dfy ===
/** The optional value used wherever the monitor may or may not have a result:
    a payload that does or does not parse as an identifier, a search that does
    or does not find its element. */
module Wrappers {

  datatype Option<+T> = None | Some(value: T)
}
